=== FILE: README.md ===
# Subscription reconstruction from PayPal monthly sales reports

This project models the core of `parse_msr_files` in `msr_parser.py`. The function reads
PayPal Monthly Sales Report (MSR) files one month at a time. From their
`Subscription Payment` rows it rebuilds per-customer subscriptions. It then summarises
each month: active, new and canceled counts, growth, churn and revenue.

The model follows the program's structure:

- `wrappers.dfy` (`Wrappers`): `Option` and `Result`. A Python exception becomes a
  `Failure` that ends the run.
- `ordered_map.dfy` (`OrderedMap`): an insertion-ordered map with the behaviour of a
  Python dict. Iteration follows first insertion, and assigning to an existing key keeps
  that key's place. The `subscriptions` and `months` dicts are both such maps.
- `decimal.dfy` (`Decimal`): `str(n)` for natural numbers, with its inverse.
- `fields.dfy` (`Fields`): cell-level helpers. These are comma stripping of the Gross
  text, the choice of date layout made by the two `re.match` tests, Python slicing with
  negative and clamped bounds, and the `year-month` key.
- `subscriptions.dfy` (`Subscriptions`): the subscription record and its three-state
  status (`Active`, `Tentative`, `Canceled`). It holds every operation of a file pass on
  the store: demotion, first-match search, id choice, renewal or creation, and
  cancellation.
- `ingest.dfy` (`Ingest`): parsing of one consumed row, the loop over a file's rows,
  one file pass with its month summary, and the loop over files.
- `properties.dfy` (`Properties`): lemmas that relate whole passes and runs to
  independent definitions. These cover the payment rows of a file, the sequence of
  their parsed payments, and a currency invariant.

Behaviour the model keeps as written:

- A tentative record matches a row when the row's reference id equals the record's id
  **or** the row's email equals the record's email. Both tests are made record by
  record, and the earliest record that passes either one wins. There is no global
  preference for reference-id matches: an earlier email match beats a later
  reference-id match.
- A new subscription whose reference id has the processor's shape (more than three
  characters, `-` at index 1) is filed under that id even when the key exists. It then
  replaces the existing record in place. That record is never a tentative one. It may be
  canceled (a customer who comes back) or one created or renewed earlier in the same
  file. If it was created earlier in the file, `new_subscriptions` counts that key
  twice. If it was renewed earlier in the file, `new_subscriptions` grows only by the
  one replacement, but the renewed record's start, length and summed gross are lost.
  In both cases `active_subscriptions` counts two rows for one key.
- If a currency lookup fails, the amount stays unconverted and still goes into the
  revenue. A zero rate is a division by zero and ends the run.
- With no prior subscriptions, growth is 100 and churn is 0.
- With `print_stats` set (the default), each pass prints a stats line that ends with
  `" " + reporting_currency` (line 205). When no reporting currency was given and no
  `Subscription Payment` row has been consumed yet, `reporting_currency` is still
  `False`, the concatenation raises, and the run ends. The model fails the pass with
  `NoCurrencyToPrint` in that case.

Collaborators become parameters. The `Env` datatype carries `parseDate` (`strptime` with
the chosen layout), `parseNumber` (`float()` on text) and `rate` (the daily exchange-rate
lookup; `None` stands for any answer other than HTTP 200). It also carries the
`print_stats` switch as `printStats`. Files arrive already sorted
and read, as a sequence of `MsrFile(path, rows)` values.

## Model

| member | source | states |
|---|---|---|
| OrderedMap.Put | msr_parser.py:159 | Assigning to a dict key keeps every key listed once, in order. A new key goes to the end and an existing key keeps its place. |
| Decimal.Show | msr_parser.py:155-157 | `str(n)` is a non-empty string of decimal digits with no leading zero. |
| Decimal.ReadShow | msr_parser.py:155-157 | Reading the digits of `str(n)` back gives `n`, so the rendering loses nothing. |
| Decimal.ShowInjective | msr_parser.py:155-157 | Different numbers render as different strings. |
| Fields.StripCommas | msr_parser.py:120-121 | The result has no comma, and every other character keeps its number of occurrences. |
| Fields.StripCommasAppend | msr_parser.py:121 | Stripping distributes over concatenation, so the kept characters stay in input order. |
| Fields.StripCommasNoComma | msr_parser.py:120-121 | A Gross text without commas passes through unchanged. |
| Fields.MatchesDatePrefixCorrect | msr_parser.py:113-115 | The greedy digit scan succeeds exactly when the pattern `d{1,2}<sep>d{1,2}<sep>dddd` matches at the start of the text, with trailing text allowed. |
| Fields.SelectDateFormat | msr_parser.py:113-118 | The `%m/%d/%Y` layout is chosen exactly when the slash pattern matches the prefix. The `%m-%d-%Y` layout is chosen exactly when only the dash pattern does. `%Y-%m-%d` is chosen otherwise. |
| Fields.PySlice | msr_parser.py:94-95 | Python slicing. It agrees with plain slicing for in-range bounds, counts negative bounds from the end, and is never longer than its input. |
| Fields.PayPalLayoutSlices | msr_parser.py:50-51 | With the default indices and a path of ten or more characters, the year is the four characters ten from the end and the month the two after them. The key then has seven characters. |
| Fields.PayPalLayoutExample | msr_parser.py:60-64 | A path ending in `MSR-201901.CSV` gives year `2019`, month `01` and key `2019-01`. |
| Fields.MonthKey | msr_parser.py:208 | The month id splits back into year, `-` and month. |
| Subscriptions.Demote | msr_parser.py:84-88 | After demotion no record is active. A record is tentative exactly when it was active or tentative before. Canceled records are untouched and only statuses change. The tentative count becomes the old active count plus the old tentative count. |
| Subscriptions.CancelLeftovers | msr_parser.py:186-190 | After cancellation no record is tentative. A record is canceled exactly when it was tentative or canceled before. Active records are untouched. The canceled count grows by exactly the number of tentative records. |
| Subscriptions.FindMatch | msr_parser.py:136-145 | The chosen record matches: it is tentative, and the reference id equals its id or the email equals its email. No earlier record in iteration order matches. None means no record at all matches. |
| Subscriptions.FreshSuffix | msr_parser.py:154-156 | The loop stops, at the least `n` at or above its start whose `email_n` is not a key. |
| Subscriptions.SynthIdInjective | msr_parser.py:155-157 | `email_n` and `email_m` are equal only when `n == m`, so the `n` loop is bounded by the number of keys. |
| Subscriptions.NewId | msr_parser.py:150-157 | A reference id of the processor's shape is used as it is, without a collision check. Otherwise the id is `email_n` for the least `n >= 1` that is not yet a key, so it collides with no key. |
| Subscriptions.ApplyPayment | msr_parser.py:136-182 | The store stays well formed, with every record under its own id. A record is created exactly when nothing matched. Only the target key changes, and at most that key is appended. |
| Subscriptions.ApplyRenews | msr_parser.py:174-180 | A renewal hits a tentative record and sets `end` to the payment date. It adds exactly 1 to `length` and adds the payment's gross. It sets the status to active. The other fields, the other records and the key order are unchanged. |
| Subscriptions.ApplyCreates | msr_parser.py:148-172 | A new record has length 1, start = end = payment date, status active and the payment's gross. It keeps the row's name, email, currency and raw Gross. Its key never belonged to a tentative record. It replaces an existing record only under a processor-shaped reference id, and is appended otherwise. |
| Subscriptions.ApplyKeepsUnnamed | msr_parser.py:136-171 | A row that names a tentative record neither by reference id nor by email leaves that record unchanged. It renews another record or creates one under a different key. |
| Subscriptions.ApplyTentativeCount | msr_parser.py:136-180 | A renewal uses up exactly one tentative record, and a creation leaves the tentative count unchanged. |
| Subscriptions.ApplyKeepsCanceled | msr_parser.py:136-171 | A canceled record is never renewed. It stays as it is unless a new subscription is filed under its key by a row carrying that key as reference id. |
| Ingest.ParseGross | msr_parser.py:119-121 | A numeric Gross cell is used as is. A text cell is parsed after its commas are stripped, and the row fails when that parse fails. |
| Ingest.Convert | msr_parser.py:122-133 | The first consumed row fixes the reporting currency, and after that it never changes. The amount is unchanged when no conversion is due or the lookup fails. A converted amount times the rate gives back the original. A zero rate is an error. |
| Ingest.PreparePayment | msr_parser.py:112-133 | A parsed payment carries the date read with the selected layout, the reporting currency, and as gross the parsed Gross cell converted into that currency. The row fails exactly when the date, the Gross cell or the conversion fails; an unreadable date or Gross cell gives its own error. |
| Ingest.ConsumeRow | msr_parser.py:106-184 | A row that is not a `Subscription Payment` changes nothing. A payment row fails exactly when parsing fails. Otherwise it adds 1 to `active_subscriptions` and the payment's gross to `monthly_revenue`, adds 1 to `new_subscriptions` exactly when a record is created, and fixes the reporting currency. |
| Ingest.ConsumeRows | msr_parser.py:106-185 | The row loop fails exactly when the consumed rows' payments cannot all be parsed. Otherwise it counts one active per consumed row and adds up their gross. Renewals plus tentative records stay constant, no key is removed, and a fixed reporting currency stays fixed. A reporting currency is known afterwards exactly when one was known before or a payment row was consumed. |
| Ingest.TallyStep | msr_parser.py:172-183 | One row never lowers the renewal count and keeps renewals plus tentative records constant. |
| Ingest.PaymentsCount | msr_parser.py:106-109 | One payment is parsed for each `Subscription Payment` row and for no other row. |
| Ingest.Rates | msr_parser.py:191-195 | With no prior subscriptions the result is (100, 0). Otherwise growth times prior is 100 times new, and churn times prior is 100 times canceled. Churn lies in [0, 100] whenever canceled <= prior. |
| Ingest.ProcessFile | msr_parser.py:83-220 | A successful pass leaves no tentative record, and the store stays well formed. The summary is keyed `year-month` from the path slices. Growth and churn are `Rates` of the number of records active before the pass, the new count and the canceled count. With `print_stats` set, a successful pass always has a reporting currency. |
| Ingest.Run | msr_parser.py:83-220 | Processing the files in order keeps the store settled and the months table a valid ordered map. |
| Ingest.ParseMsrFiles | msr_parser.py:48-225 | A whole run returns a settled subscriptions table and a valid months table. |
| Properties.PaymentRows | msr_parser.py:106-109 | The kept rows are all payment rows, and there are as many as the file has. Each payment row occurs as often as in the file, and no other row occurs. |
| Properties.PaymentRowsAppend | msr_parser.py:106-109 | Filtering a file split in two gives the filtered halves joined, so the kept rows stay in file order. |
| Properties.OtherRowsIgnored | msr_parser.py:108-109 | Dropping every non-payment row from a file does not change the outcome of the row loop: the same store, counters, revenue, currency or error. |
| Properties.FileOtherRowsIgnored | msr_parser.py:106-109 | The same holds for a whole file pass, including its month summary. |
| Properties.PassCounts | msr_parser.py:84-195 | `active` is the number of payment rows and `canceled <= prior`. `active + canceled == new + prior`, where prior is the active count before the pass. Growth and churn are `Rates(prior, new, canceled)`: 100·new/prior and 100·canceled/prior. Churn lies in [0, 100]. prior = 0 gives growth 100 and churn 0. Revenue is the sum of the consumed payments' converted gross. The key is `year-month` from the path. |
| Properties.PassFailsExactly | msr_parser.py:106-205 | A file pass fails exactly when some consumed row's date, gross or conversion fails, or when the stats line is printed while no reporting currency is known: none was given and no payment row has been consumed. |
| Properties.LoopCounts | msr_parser.py:84-185 | The row loop of a pass counts one active per payment row and sums their gross. Renewals plus the records still tentative at its end add up to the number of subscriptions active before the pass. |
| Properties.RowsKeepCanceled | msr_parser.py:136-190 | Through any rows, a canceled record keeps its record unless some payment row carries its key as reference id. Its key is never removed. |
| Properties.RowsKeepUnnamed | msr_parser.py:136-184 | A tentative record that no payment row names by reference id or by email is unchanged by the row loop. |
| Properties.PassCancelsUnpaid | msr_parser.py:84-190 | A subscription active before a file and named by none of its payment rows goes from active to tentative to canceled within the pass. Every other field stays as it was. |
| Properties.PassKeepsCanceled | msr_parser.py:84-190 | Canceled is terminal across a whole file pass. Demotion and cancellation never touch it, matching never renews it, and only a row naming its key can replace it. |
| Properties.RowKeepsCurrency | msr_parser.py:122-171 | One row keeps every subscription in the reporting currency and never changes a fixed reporting currency. |
| Properties.RowsKeepCurrency | msr_parser.py:106-184 | The row loop keeps every subscription in the reporting currency. |
| Properties.PassKeepsCurrency | msr_parser.py:84-219 | A pass keeps subscriptions in the reporting currency and reports the month in it. A fixed reporting currency is unchanged. |
| Properties.RunKeepsCurrency | msr_parser.py:83-220 | Across files, subscriptions stay in the reporting currency, and a given reporting currency is never replaced. |
| Properties.RunMonthsCurrency | msr_parser.py:209-220 | Once the reporting currency is fixed, every later month summary is in it. |
| Properties.OneCurrency | msr_parser.py:124-166 | All subscriptions of the result share one currency. When a reporting currency is given, that currency is used by every subscription and every month. |
| Properties.RunMonthKeys | msr_parser.py:208-209 | Every month key is the key of one of the files, and there are at most as many months as files. Earlier keys stay in the table. |
| Properties.RunHasFileKeys | msr_parser.py:208-209 | Each file's `year-month` key is in the months table after the run, and earlier keys stay. |
| Properties.RunEntryIds | msr_parser.py:208-210 | If every entry of the months table is filed under its own id before a run, the same holds after it. |
| Properties.MonthsTable | msr_parser.py:208-220 | The months table of a whole run has exactly the files' distinct `year-month` keys, and each entry's id is its key. |

## Left out

- File discovery and reading (`glob`, the sort of the paths, `pd.read_csv`) are I/O. The
  input is a sequence of already sorted files, each a sequence of rows.
- The exchange-rate HTTP request and JSON decoding are a network call, replaced by the
  `rate` parameter. A 200 answer whose JSON lacks the currency would raise an exception
  in the program. The parameter cannot express that case.
- `strptime` and `float()` are library code. They are the `parseDate` and `parseNumber`
  parameters; only the choice of date layout and the comma stripping are modelled.
- Amounts are exact `real` numbers, not binary floating point. `float(...)` division
  and the rounding of growth, churn and converted gross are not modelled. The program's
  integer `100` and `0` defaults become `100.0` and `0.0`.
- Cells the CSV reader returns as NaN are modelled only for the Reference Txn ID
  (`None`). A NaN Description is any other description, so its row is skipped. A NaN
  Date, email or Currency, which the program would either fail on or compare as unequal
  to everything, is not modelled.
- The text of the per-month stats line and its `%` formatting are output only; of the
  stats line, only the failure of its string concatenation is modelled. The conversion
  of both dicts to DataFrames is also left out: the model returns the two ordered maps
  directly.
- `subscriptions_analyzer.py` draws charts and computes least-squares fits and floating
  means. It has no state and is not part of this model. `example.py` and `test.py` are
  two-line driver scripts and are not part of this model either.
- Ingest.ProcessFile: requires that no record is tentative when a pass starts. This
  holds for the empty store and is re-established by every pass. The program never
  calls the pass body in any other state.
- A concrete two-month instance (one customer paying in January and in February:
  length 2, gross 20, growth 0) has no lemma of its own. `ApplyCreates`, `ApplyRenews`
  and `PassCounts` state the general behaviour it illustrates.
- Ingest.ParseMsrFiles: the run is deterministic because the model is a function. No
  separate lemma states that repeating a run gives identical tables.

=== FILE: decimal.dfy ===
/** Decimal rendering of natural numbers, as Python's `str(n)` produces it. */
module Decimal {

  predicate IsDigit(c: char) {
    '0' <= c <= '9'
  }

  function DigitChar(d: nat): (c: char)
    requires d < 10
    ensures IsDigit(c)
  {
    ['0', '1', '2', '3', '4', '5', '6', '7', '8', '9'][d]
  }

  function DigitValue(c: char): (d: nat)
    requires IsDigit(c)
    ensures d < 10
    ensures DigitChar(d) == c
  {
    (c as int - '0' as int) as nat
  }

  /** `str(n)`: decimal digits, most significant first, without leading zeros. */
  function Show(n: nat): (s: string)
    ensures 1 <= |s|
    ensures forall i :: 0 <= i < |s| ==> IsDigit(s[i])
    ensures s[0] == '0' ==> n == 0 && |s| == 1
  {
    if n < 10 then [DigitChar(n)] else Show(n / 10) + [DigitChar(n % 10)]
  }

  /** Reads a string of decimal digits back as a number (the partner of Show). */
  function Read(s: string): nat
    requires forall i :: 0 <= i < |s| ==> IsDigit(s[i])
  {
    if |s| == 0 then 0 else Read(s[..|s| - 1]) * 10 + DigitValue(s[|s| - 1])
  }

  lemma {:induction false} ReadShow(n: nat)
    ensures Read(Show(n)) == n
  {
    var s := Show(n);
    if n < 10 {
      assert s[..0] == [];
    } else {
      ReadShow(n / 10);
      assert s[..|s| - 1] == Show(n / 10);
    }
  }

  /** Distinct numbers are rendered as distinct strings. */
  lemma ShowInjective(n: nat, m: nat)
    ensures Show(n) == Show(m) ==> n == m
  {
    ReadShow(n);
    ReadShow(m);
  }
}

=== FILE: fields.dfy ===
/** Field-level helpers of the report parser: thousands-separator stripping of the
    Gross cell, the choice of date format for the Date cell, and the year/month slices
    taken from a report's file name. */
module Fields {
  import opened Decimal

  /** `gross.replace(',', '')`: drops every comma and keeps every other character in order. */
  function StripCommas(s: string): (r: string)
    ensures ',' !in r
    ensures forall c :: c != ',' ==> multiset(r)[c] == multiset(s)[c]
  {
    if |s| == 0 then []
    else
      assert s == [s[0]] + s[1..];
      if s[0] == ',' then StripCommas(s[1..]) else [s[0]] + StripCommas(s[1..])
  }

  /** Stripping distributes over concatenation, so the relative order of the kept
      characters is that of the input. */
  lemma {:induction false} StripCommasAppend(a: string, b: string)
    ensures StripCommas(a + b) == StripCommas(a) + StripCommas(b)
  {
    if |a| == 0 {
      assert a + b == b;
    } else {
      assert (a + b)[1..] == a[1..] + b;
      StripCommasAppend(a[1..], b);
    }
  }

  /** A cell without commas is left as it is. */
  lemma {:induction false} StripCommasNoComma(s: string)
    requires ',' !in s
    ensures StripCommas(s) == s
  {
    if |s| > 0 {
      assert ',' !in s[1..];
      StripCommasNoComma(s[1..]);
    }
  }

  /** The three `strptime` layouts the parser tries, in order. */
  datatype DateFormat =
    | MonthDaySlash   // '%m/%d/%Y'
    | MonthDayDash    // '%m-%d-%Y'
    | IsoDate         // '%Y-%m-%d'

  /** `s` has `n` decimal digits starting at index `i`. */
  ghost predicate DigitsAt(s: string, i: nat, n: nat) {
    && (n == 0 || i + n <= |s|)
    && forall k :: i <= k < i + n ==> IsDigit(s[k])
  }

  /** The prefix `s` would need for the pattern `[0-9]{a}<sep>[0-9]{b}<sep>[0-9]{4}`. */
  ghost predicate PrefixShape(s: string, sep: char, a: nat, b: nat) {
    && DigitsAt(s, 0, a)
    && a < |s| && s[a] == sep
    && DigitsAt(s, a + 1, b)
    && a + 1 + b < |s| && s[a + 1 + b] == sep
    && DigitsAt(s, a + b + 2, 4)
  }

  /** `re.match(r"[0-9]{1,2}<sep>[0-9]{1,2}<sep>[0-9]{4}", s)` succeeds: the pattern
      matches at the start of `s` (trailing text is allowed). */
  ghost predicate DatePrefix(s: string, sep: char) {
    exists a: nat, b: nat | 1 <= a <= 2 && 1 <= b <= 2 :: PrefixShape(s, sep, a, b)
  }

  /** Number of consecutive digits of `s` from index `i`, counting at most `limit`. */
  function LeadDigits(s: string, i: nat, limit: nat): (n: nat)
    ensures n <= limit
    ensures DigitsAt(s, i, n)
    ensures n < limit ==> i + n >= |s| || !IsDigit(s[i + n])
    decreases limit
  {
    if limit == 0 || i >= |s| || !IsDigit(s[i]) then 0
    else
      var m := LeadDigits(s, i + 1, limit - 1);
      assert DigitsAt(s, i, 1 + m) by {
        forall k | i <= k < i + 1 + m
          ensures IsDigit(s[k])
        {
          if k > i { assert i + 1 <= k < i + 1 + m; }
        }
      }
      1 + m
  }

  /** A greedy scan for the date pattern; greedy is exact because the separator is
      not a digit. */
  function MatchesDatePrefix(s: string, sep: char): bool {
    var a := LeadDigits(s, 0, 2);
    var b := LeadDigits(s, a + 1, 2);
    && 1 <= a && a < |s| && s[a] == sep
    && 1 <= b && a + 1 + b < |s| && s[a + 1 + b] == sep
    && LeadDigits(s, a + b + 2, 4) == 4
  }

  lemma MatchesDatePrefixCorrect(s: string, sep: char)
    requires !IsDigit(sep)
    ensures MatchesDatePrefix(s, sep) <==> DatePrefix(s, sep)
  {
    var a := LeadDigits(s, 0, 2);
    var b := LeadDigits(s, a + 1, 2);
    if MatchesDatePrefix(s, sep) {
      assert PrefixShape(s, sep, a, b);
    }
    if DatePrefix(s, sep) {
      var a': nat, b': nat :| 1 <= a' <= 2 && 1 <= b' <= 2 && PrefixShape(s, sep, a', b');
      assert a == a';
      assert b == b';
    }
  }

  /** The branch of the Date parsing that is taken: slash layout first, then the dash
      layout, and the ISO layout for everything else. */
  function SelectDateFormat(s: string): (f: DateFormat)
    ensures f == MonthDaySlash <==> DatePrefix(s, '/')
    ensures f == MonthDayDash <==> !DatePrefix(s, '/') && DatePrefix(s, '-')
    ensures f == IsoDate <==> !DatePrefix(s, '/') && !DatePrefix(s, '-')
  {
    MatchesDatePrefixCorrect(s, '/');
    MatchesDatePrefixCorrect(s, '-');
    if MatchesDatePrefix(s, '/') then MonthDaySlash
    else if MatchesDatePrefix(s, '-') then MonthDayDash
    else IsoDate
  }

  /** A Python slice bound: negative values count from the end, and the result is
      clamped to `0..len`. */
  function SliceBound(i: int, len: nat): (b: nat)
    ensures b <= len
    ensures 0 <= i <= len ==> b == i
    ensures -(len as int) <= i < 0 ==> b == len + i
  {
    if i < 0 then (if len + i < 0 then 0 else len + i)
    else if i > len then len
    else i
  }

  /** Python's `s[i:j]`, which never fails: out-of-range bounds are clamped and an
      empty range gives the empty string. */
  function PySlice(s: string, i: int, j: int): (r: string)
    ensures |r| <= |s|
    ensures 0 <= i <= j <= |s| ==> r == s[i..j]
    ensures -(|s| as int) <= i <= j < 0 ==> r == s[|s| + i..|s| + j]
  {
    var a := SliceBound(i, |s|);
    var b := SliceBound(j, |s|);
    if a < b then s[a..b] else []
  }

  /** Where in the file path the year and the month sit (`filename_year`,
      `filename_month`). */
  datatype NameLayout = NameLayout(yearFrom: int, yearTo: int, monthFrom: int, monthTo: int)

  /** The layout of PayPal's `MSR-YYYYMM.CSV` names: `[-10, -6]` and `[-6, -4]`. */
  const PayPalLayout := NameLayout(-10, -6, -6, -4)

  function YearOf(path: string, layout: NameLayout): string {
    PySlice(path, layout.yearFrom, layout.yearTo)
  }

  function MonthOf(path: string, layout: NameLayout): string {
    PySlice(path, layout.monthFrom, layout.monthTo)
  }

  /** The key of a month's summary, `year + "-" + month`. */
  function MonthKey(year: string, month: string): (key: string)
    ensures |key| == |year| + 1 + |month|
    ensures key[..|year|] == year && key[|year|] == '-' && key[|year| + 1..] == month
  {
    year + "-" + month
  }

  /** With the default layout and a path of at least ten characters, the year is the
      four characters before the last six and the month the two after it, so the month
      key is `YYYY-MM` read from the end of the path. */
  lemma PayPalLayoutSlices(path: string)
    requires |path| >= 10
    ensures YearOf(path, PayPalLayout) == path[|path| - 10..|path| - 6]
    ensures MonthOf(path, PayPalLayout) == path[|path| - 6..|path| - 4]
    ensures |MonthKey(YearOf(path, PayPalLayout), MonthOf(path, PayPalLayout))| == 7
  {
  }

  /** A typical report path yields the key "2019-01". */
  lemma PayPalLayoutExample()
    ensures YearOf("reports/MSR-201901.CSV", PayPalLayout) == "2019"
    ensures MonthOf("reports/MSR-201901.CSV", PayPalLayout) == "01"
    ensures MonthKey(YearOf("reports/MSR-201901.CSV", PayPalLayout),
                     MonthOf("reports/MSR-201901.CSV", PayPalLayout)) == "2019-01"
  {
    var p := "reports/MSR-201901.CSV";
    assert |p| == 22;
    assert p[12..16] == "2019";
    assert p[16..18] == "01";
  }
}

=== FILE: ingest.dfy ===
/** The report ingestor: one pass per monthly report file, in the given order, over a
    subscription store that persists from file to file, producing the subscriptions
    table and one summary per month. */
module Ingest {
  import opened Wrappers
  import opened OrderedMap
  import opened Fields
  import opened Subscriptions

  /** Why a run stops. Each is an exception that ends the whole run. */
  datatype Error =
    | UnparseableDate(text: string)                          // no strptime layout fits
    | UnparseableGross(text: string)                         // float() rejects the cell
    | ZeroRate(date: Date, base: string, symbol: string)     // division by a zero rate
    | NoCurrencyToPrint(year: string, month: string)         // `str + False` in the stats line

  /** Library and network collaborators, as parameters: `parseDate` is `strptime` with
      the chosen layout, `parseNumber` is `float()` on text, and `rate` is the daily
      exchange-rate lookup, None when the service does not answer with HTTP 200.
      `printStats` is the `print_stats` argument: when set, each pass ends with a stats
      line that appends the reporting currency to a string. */
  datatype Env = Env(
    parseDate: (string, DateFormat) -> Option<Date>,
    parseNumber: string -> Option<real>,
    rate: (Date, string, string) -> Option<real>,
    printStats: bool)

  /** One report file: its path and its rows in file order. */
  datatype MsrFile = MsrFile(path: string, rows: seq<Row>)

  /** Running counters of a pass: rows consumed, subscriptions created, revenue. */
  datatype Tally = Tally(active: nat, created: nat, revenue: real)

  /** The state threaded through the rows of a file. */
  datatype PassState = PassState(subs: Store, reporting: Option<string>, tally: Tally)

  /** The state kept from one file to the next. */
  datatype Ledger = Ledger(subs: Store, reporting: Option<string>)

  /** One entry of the months table. */
  datatype MonthSummary = MonthSummary(
    id: string,
    year: string,
    month: string,
    active: nat,
    created: nat,
    canceled: nat,
    growth: real,
    churn: real,
    revenue: real,
    currency: Option<string>)

  type Months = OMap<string, MonthSummary>

  const PaymentDescription := "Subscription Payment"

  /** Only subscription payments are consumed; every other row is skipped. */
  predicate IsPayment(row: Row) {
    row.description == PaymentDescription
  }

  /** Between two files the store is well formed and nothing is tentative. */
  ghost predicate Settled(st: Store) {
    WellFormed(st) && NoneWith(st, Tentative)
  }

  // ---------------------------------------------------------------------------
  // Parsing one consumed row

  /** The Date cell, read with the layout its prefix selects. */
  function ParseDate(env: Env, text: string): Result<Date, Error> {
    match env.parseDate(text, SelectDateFormat(text))
    case Some(d) => Success(d)
    case None => Failure(UnparseableDate(text))
  }

  /** The Gross cell: a number as it is, text with its thousands separators dropped. */
  function ParseGross(env: Env, cell: Amount): (r: Result<real, Error>)
    ensures cell.Number? ==> r == Success(cell.number)
    ensures cell.Text? ==> (r.Success? <==> env.parseNumber(StripCommas(cell.text)).Some?)
    ensures cell.Text? && r.Success? ==> r.value == env.parseNumber(StripCommas(cell.text)).value
  {
    match cell
    case Number(x) => Success(x)
    case Text(t) =>
      match env.parseNumber(StripCommas(t))
      case Some(x) => Success(x)
      case None => Failure(UnparseableGross(t))
  }

  /** Brings `gross` into the reporting currency. With no reporting currency yet, the
      row's currency becomes it. A lookup that fails leaves the amount unconverted; a
      zero rate is a division by zero. The second component is the reporting currency
      afterwards. */
  function Convert(env: Env, date: Date, gross: real, reporting: Option<string>, currency: string)
    : (r: Result<(real, string), Error>)
    ensures r.Success? ==> r.value.1 == reporting.GetOr(currency)
    ensures reporting.None? || reporting == Some(currency) ==> r == Success((gross, reporting.GetOr(currency)))
    ensures reporting.Some? && reporting.value != currency ==>
              match env.rate(date, reporting.value, currency)
              case None => r == Success((gross, reporting.value))
              case Some(x) => (r.Failure? <==> x == 0.0) && (r.Success? ==> r.value.0 * x == gross)
  {
    match reporting
    case None => Success((gross, currency))
    case Some(rc) =>
      if currency == rc then Success((gross, rc))
      else
        match env.rate(date, rc, currency)
        case None => Success((gross, rc))
        case Some(x) =>
          if x == 0.0 then Failure(ZeroRate(date, rc, currency))
          else Success((gross / x, rc))
  }

  /** Parses a consumed row: date, then gross, then currency conversion. */
  function PreparePayment(env: Env, reporting: Option<string>, row: Row): (r: Result<Payment, Error>)
    ensures r.Success? ==> r.value.currency == reporting.GetOr(row.currency)
    ensures r.Success? ==> ParseDate(env, row.date) == Success(r.value.date)
    ensures ParseDate(env, row.date).Failure? ==> r == Failure(ParseDate(env, row.date).error)
    ensures var d := ParseDate(env, row.date);
            var g := ParseGross(env, row.gross);
            r.Success? <==> d.Success? && g.Success?
                            && Convert(env, d.value, g.value, reporting, row.currency).Success?
    ensures var d := ParseDate(env, row.date);
            var g := ParseGross(env, row.gross);
            d.Success? && g.Failure? ==> r == Failure(g.error)
    ensures r.Success? ==>
              r.value.gross
              == Convert(env, r.value.date, ParseGross(env, row.gross).value, reporting, row.currency).value.0
  {
    var date :- ParseDate(env, row.date);
    var gross :- ParseGross(env, row.gross);
    var (amount, rc) :- Convert(env, date, gross, reporting, row.currency);
    Success(Payment(date, amount, rc))
  }

  // ---------------------------------------------------------------------------
  // Consuming rows

  /** Handles one row of a file. */
  function ConsumeRow(env: Env, ps: PassState, row: Row): (r: Result<PassState, Error>)
    requires WellFormed(ps.subs)
    ensures !IsPayment(row) ==> r == Success(ps)
    ensures IsPayment(row) ==> (r.Success? <==> PreparePayment(env, ps.reporting, row).Success?)
    ensures r.Success? ==> WellFormed(r.value.subs)
    ensures IsPayment(row) && r.Success? ==>
              var p := PreparePayment(env, ps.reporting, row).value;
              && r.value.reporting == Some(p.currency)
              && r.value.tally.active == ps.tally.active + 1
              && r.value.tally.revenue == ps.tally.revenue + p.gross
              && r.value.subs == ApplyPayment(ps.subs, row, p).0
              && r.value.tally.created == ps.tally.created + (if ApplyPayment(ps.subs, row, p).1 then 1 else 0)
  {
    if !IsPayment(row) then Success(ps)
    else
      var p :- PreparePayment(env, ps.reporting, row);
      var (subs, created) := ApplyPayment(ps.subs, row, p);
      Success(PassState(subs, Some(p.currency),
                        Tally(ps.tally.active + 1,
                              ps.tally.created + (if created then 1 else 0),
                              ps.tally.revenue + p.gross)))
  }

  /** The consumed rows' payments, in file order, independent of the store. */
  function Payments(env: Env, reporting: Option<string>, rows: seq<Row>): (r: Result<seq<Payment>, Error>)
    decreases |rows|
  {
    if |rows| == 0 then Success([])
    else if !IsPayment(rows[0]) then Payments(env, reporting, rows[1..])
    else
      var p :- PreparePayment(env, reporting, rows[0]);
      var rest :- Payments(env, Some(p.currency), rows[1..]);
      Success([p] + rest)
  }

  /** The number of subscription-payment rows. */
  function CountPayments(rows: seq<Row>): nat {
    if |rows| == 0 then 0 else (if IsPayment(rows[0]) then 1 else 0) + CountPayments(rows[1..])
  }

  function SumGross(ps: seq<Payment>): real {
    if |ps| == 0 then 0.0 else ps[0].gross + SumGross(ps[1..])
  }

  /** Rows consumed minus subscriptions created: the number of renewals so far. */
  function Renewals(t: Tally): int {
    t.active - t.created
  }

  /** The loop over a file's rows. It fails exactly when parsing some consumed row
      fails; otherwise it counts every consumed row once, adds up their gross, and each
      renewal uses up one tentative record. Keys are never removed. */
  function ConsumeRows(env: Env, ps: PassState, rows: seq<Row>): (r: Result<PassState, Error>)
    requires WellFormed(ps.subs)
    ensures r.Success? <==> Payments(env, ps.reporting, rows).Success?
    ensures r.Success? ==> WellFormed(r.value.subs)
    ensures r.Success? ==> ps.subs.items.Keys <= r.value.subs.items.Keys
    ensures r.Success? ==>
              var pays := Payments(env, ps.reporting, rows).value;
              && r.value.tally.active == ps.tally.active + |pays|
              && r.value.tally.revenue == ps.tally.revenue + SumGross(pays)
              && ps.tally.created <= r.value.tally.created
              && Renewals(ps.tally) <= Renewals(r.value.tally)
              && Renewals(r.value.tally) + Count(r.value.subs, Tentative)
                 == Renewals(ps.tally) + Count(ps.subs, Tentative)
    ensures r.Success? && ps.reporting.Some? ==> r.value.reporting == ps.reporting
    ensures r.Success? ==> (r.value.reporting.Some? <==> ps.reporting.Some? || CountPayments(rows) > 0)
    decreases |rows|
  {
    if |rows| == 0 then Success(ps)
    else
      var next :- ConsumeRow(env, ps, rows[0]);
      TallyStep(env, ps, rows[0]);
      ConsumeRows(env, next, rows[1..])
  }

  /** One row keeps renewals plus tentative records constant. */
  lemma TallyStep(env: Env, ps: PassState, row: Row)
    requires WellFormed(ps.subs)
    ensures var r := ConsumeRow(env, ps, row);
            r.Success? ==>
              && ps.subs.items.Keys <= r.value.subs.items.Keys
              && ps.tally.created <= r.value.tally.created
              && Renewals(ps.tally) <= Renewals(r.value.tally)
              && Renewals(r.value.tally) + Count(r.value.subs, Tentative)
                 == Renewals(ps.tally) + Count(ps.subs, Tentative)
  {
    var r := ConsumeRow(env, ps, row);
    if IsPayment(row) && r.Success? {
      var p := PreparePayment(env, ps.reporting, row).value;
      ApplyTentativeCount(ps.subs, row, p);
    }
  }

  /** The consumed rows are exactly the subscription-payment rows. */
  lemma {:induction false} PaymentsCount(env: Env, reporting: Option<string>, rows: seq<Row>)
    ensures Payments(env, reporting, rows).Success? ==>
              |Payments(env, reporting, rows).value| == CountPayments(rows)
    decreases |rows|
  {
    if |rows| > 0 {
      if !IsPayment(rows[0]) {
        PaymentsCount(env, reporting, rows[1..]);
      } else if PreparePayment(env, reporting, rows[0]).Success? {
        var p := PreparePayment(env, reporting, rows[0]).value;
        PaymentsCount(env, Some(p.currency), rows[1..]);
      }
    }
  }

  // ---------------------------------------------------------------------------
  // One file pass

  /** Growth and churn in percent of the subscriptions active before the pass. With
      no prior subscriptions growth is 100 and churn 0 by convention. */
  function Rates(prior: nat, created: nat, canceled: nat): (r: (real, real))
    ensures prior == 0 ==> r == (100.0, 0.0)
    ensures prior != 0 ==> r.0 * prior as real == 100.0 * created as real
    ensures prior != 0 ==> r.1 * prior as real == 100.0 * canceled as real
    ensures canceled <= prior ==> 0.0 <= r.1 <= 100.0
  {
    if prior == 0 then (100.0, 0.0)
    else (100.0 * created as real / prior as real, 100.0 * canceled as real / prior as real)
  }

  /** Processes one report file: demote, consume the rows, cancel what was not renewed,
      and summarise the month under the key taken from the file path. With `printStats`
      set, a pass that ends with no reporting currency fails on the stats line. */
  function ProcessFile(env: Env, led: Ledger, file: MsrFile, layout: NameLayout)
    : (r: Result<(Ledger, MonthSummary), Error>)
    requires Settled(led.subs)
    ensures r.Success? ==> Settled(r.value.0.subs)
    ensures r.Success? ==> r.value.1.id == MonthKey(YearOf(file.path, layout), MonthOf(file.path, layout))
    ensures r.Success? ==> (r.value.1.growth, r.value.1.churn)
                           == Rates(Count(led.subs, Active), r.value.1.created, r.value.1.canceled)
    ensures r.Success? && env.printStats ==> r.value.1.currency.Some?
  {
    var prior := Count(led.subs, Active);
    var demoted := Demote(led.subs);
    var done :- ConsumeRows(env, PassState(demoted, led.reporting, Tally(0, 0, 0.0)), file.rows);
    var canceled := Count(done.subs, Tentative);
    var closed := CancelLeftovers(done.subs);
    var (growth, churn) := Rates(prior, done.tally.created, canceled);
    var year := YearOf(file.path, layout);
    var month := MonthOf(file.path, layout);
    if env.printStats && done.reporting.None? then Failure(NoCurrencyToPrint(year, month))
    else
      Success((Ledger(closed, done.reporting),
               MonthSummary(MonthKey(year, month), year, month,
                            done.tally.active, done.tally.created, canceled,
                            growth, churn, done.tally.revenue, done.reporting)))
  }

  /** The subscriptions and months tables after processing `files` in order. */
  function Run(env: Env, led: Ledger, months: Months, files: seq<MsrFile>, layout: NameLayout)
    : (r: Result<(Ledger, Months), Error>)
    requires Settled(led.subs)
    requires Valid(months)
    ensures r.Success? ==> Settled(r.value.0.subs) && Valid(r.value.1)
    decreases |files|
  {
    if |files| == 0 then Success((led, months))
    else
      var (next, summary) :- ProcessFile(env, led, files[0], layout);
      Run(env, next, Put(months, summary.id, summary), files[1..], layout)
  }

  /** `parse_msr_files` over already sorted and read files, with an optional reporting
      currency. */
  function ParseMsrFiles(env: Env, files: seq<MsrFile>, layout: NameLayout, reporting: Option<string>)
    : (r: Result<(Store, Months), Error>)
    ensures r.Success? ==> Settled(r.value.0) && Valid(r.value.1)
  {
    var (led, months) :- Run(env, Ledger(Empty(), reporting), Empty(), files, layout);
    Success((led.subs, months))
  }
}

=== FILE: ordered_map.dfy ===
/** An insertion-ordered finite map, the shape of a Python dict: iteration follows the
    order in which keys were first inserted, and assigning to a key that is already
    present replaces its value without moving the key. */
module OrderedMap {

  /** `keys` holds the iteration order, `items` the key-value pairs. */
  datatype OMap<K, V> = OMap(keys: seq<K>, items: map<K, V>)

  /** No key occurs twice in `s`. */
  ghost predicate Distinct<K>(s: seq<K>) {
    forall i, j :: 0 <= i < j < |s| ==> s[i] != s[j]
  }

  /** The iteration order lists every key of the map exactly once. */
  ghost predicate Valid<K, V>(om: OMap<K, V>) {
    && Distinct(om.keys)
    && (forall k :: k in om.keys ==> k in om.items)
    && (forall k :: k in om.items ==> k in om.keys)
  }

  /** The empty dict `{}`. */
  function Empty<K, V>(): (om: OMap<K, V>)
    ensures Valid(om)
    ensures om.items == map[]
  {
    OMap([], map[])
  }

  /** `d[k] = v`: a new key goes to the end of the iteration order, an existing key
      keeps its place. */
  function Put<K, V>(om: OMap<K, V>, k: K, v: V): (r: OMap<K, V>)
    requires Valid(om)
    ensures Valid(r)
    ensures r.items == om.items[k := v]
    ensures k in om.items ==> r.keys == om.keys
    ensures k !in om.items ==> r.keys == om.keys + [k]
  {
    if k in om.items then OMap(om.keys, om.items[k := v])
    else OMap(om.keys + [k], om.items[k := v])
  }
}

=== FILE: properties.dfy ===
/** Properties of whole file passes and runs of the report ingestor. */
module Properties {
  import opened Wrappers
  import opened OrderedMap
  import opened Fields
  import opened Subscriptions
  import opened Ingest

  /** The subscription-payment rows of a file, in order. */
  function PaymentRows(rows: seq<Row>): (r: seq<Row>)
    ensures |r| == CountPayments(rows)
    ensures forall i :: 0 <= i < |r| ==> IsPayment(r[i])
    ensures forall x :: multiset(r)[x] == (if IsPayment(x) then multiset(rows)[x] else 0)
  {
    if |rows| == 0 then []
    else
      assert rows == [rows[0]] + rows[1..];
      if IsPayment(rows[0]) then [rows[0]] + PaymentRows(rows[1..])
      else PaymentRows(rows[1..])
  }

  /** Filtering distributes over concatenation, so the kept rows stay in file order. */
  lemma {:induction false} PaymentRowsAppend(a: seq<Row>, b: seq<Row>)
    ensures PaymentRows(a + b) == PaymentRows(a) + PaymentRows(b)
    decreases |a|
  {
    if |a| > 0 {
      assert (a + b)[0] == a[0] && (a + b)[1..] == a[1..] + b;
      PaymentRowsAppend(a[1..], b);
    } else {
      assert a + b == b;
    }
  }

  /** Rows whose description is not "Subscription Payment" change nothing: dropping
      them from a file gives the same store, counters, revenue and error. */
  lemma {:induction false} OtherRowsIgnored(env: Env, ps: PassState, rows: seq<Row>)
    requires WellFormed(ps.subs)
    ensures ConsumeRows(env, ps, rows) == ConsumeRows(env, ps, PaymentRows(rows))
    decreases |rows|
  {
    if |rows| > 0 {
      if IsPayment(rows[0]) {
        var kept := PaymentRows(rows);
        assert kept[0] == rows[0] && kept[1..] == PaymentRows(rows[1..]);
        var next := ConsumeRow(env, ps, rows[0]);
        if next.Success? {
          OtherRowsIgnored(env, next.value, rows[1..]);
        }
      } else {
        OtherRowsIgnored(env, ps, rows[1..]);
      }
    }
  }

  /** The same at the level of a whole file pass. */
  lemma FileOtherRowsIgnored(env: Env, led: Ledger, file: MsrFile, layout: NameLayout)
    requires Settled(led.subs)
    ensures ProcessFile(env, led, file, layout)
            == ProcessFile(env, led, MsrFile(file.path, PaymentRows(file.rows)), layout)
  {
    var demoted := Demote(led.subs);
    OtherRowsIgnored(env, PassState(demoted, led.reporting, Tally(0, 0, 0.0)), file.rows);
  }

  /** The counts of a month summary. Every subscription-payment row is counted as
      active; renewals plus cancellations add up to the subscriptions active before
      the file, so active = new + prior - canceled and canceled <= prior; growth and churn are
      the percentages `Rates` computes from prior, new and canceled, churn lies in
      [0, 100], and with no prior subscriptions they are 100 and 0; revenue is the sum of the
      consumed rows' (converted) gross; the key is `year-month` from the path. */
  lemma PassCounts(env: Env, led: Ledger, file: MsrFile, layout: NameLayout)
    requires Settled(led.subs)
    ensures var r := ProcessFile(env, led, file, layout);
            var prior := Count(led.subs, Active);
            r.Success? ==>
              var m := r.value.1;
              && Payments(env, led.reporting, file.rows).Success?
              && m.active == CountPayments(file.rows)
              && m.canceled <= prior
              && m.active + m.canceled == m.created + prior
              && (prior == 0 ==> m.growth == 100.0 && m.churn == 0.0)
              && (m.growth, m.churn) == Rates(prior, m.created, m.canceled)
              && 0.0 <= m.churn <= 100.0
              && m.revenue == SumGross(Payments(env, led.reporting, file.rows).value)
              && m.id == MonthKey(YearOf(file.path, layout), MonthOf(file.path, layout))
  {
    var r := ProcessFile(env, led, file, layout);
    if r.Success? {
      var prior := Count(led.subs, Active);
      var m := r.value.1;
      PassSummary(env, led, file, layout);
      LoopCounts(env, led, file);
    }
  }

  /** The row loop of a pass, started on the demoted store: one active per payment row,
      revenue the sum of the payments, and the renewals plus the records still
      tentative at the end add up to the number of subscriptions active before the
      pass. */
  lemma LoopCounts(env: Env, led: Ledger, file: MsrFile)
    requires Settled(led.subs)
    ensures var done := ConsumeRows(env, PassState(Demote(led.subs), led.reporting, Tally(0, 0, 0.0)), file.rows);
            done.Success? ==>
              && Payments(env, led.reporting, file.rows).Success?
              && done.value.tally.active == CountPayments(file.rows)
              && done.value.tally.revenue == SumGross(Payments(env, led.reporting, file.rows).value)
              && 0 <= Renewals(done.value.tally)
              && Renewals(done.value.tally) + Count(done.value.subs, Tentative) == Count(led.subs, Active)
  {
    var demoted := Demote(led.subs);
    CountZero(led.subs.keys, led.subs.items, Tentative);
    assert Count(demoted, Tentative) == Count(led.subs, Active);
    PaymentsCount(env, led.reporting, file.rows);
  }

  /** The month summary of a successful pass, spelled out from the row loop's result. */
  lemma PassSummary(env: Env, led: Ledger, file: MsrFile, layout: NameLayout)
    requires Settled(led.subs)
    ensures var r := ProcessFile(env, led, file, layout);
            var done := ConsumeRows(env, PassState(Demote(led.subs), led.reporting, Tally(0, 0, 0.0)), file.rows);
            r.Success? ==>
              && done.Success?
              && r.value.1.active == done.value.tally.active
              && r.value.1.created == done.value.tally.created
              && r.value.1.canceled == Count(done.value.subs, Tentative)
              && r.value.1.revenue == done.value.tally.revenue
  {
  }

  /** A pass fails exactly when parsing some consumed row of the file fails, or when
      the stats line is printed while no reporting currency is known: none was given,
      and neither this file nor an earlier one had a subscription payment. */
  lemma PassFailsExactly(env: Env, led: Ledger, file: MsrFile, layout: NameLayout)
    requires Settled(led.subs)
    ensures ProcessFile(env, led, file, layout).Success?
            <==> && Payments(env, led.reporting, file.rows).Success?
                 && (!env.printStats || led.reporting.Some? || CountPayments(file.rows) > 0)
  {
  }

  /** A canceled subscription is never renewed: through any sequence of rows it keeps
      its record unless some subscription-payment row carries its key as reference id. */
  lemma {:induction false} RowsKeepCanceled(env: Env, ps: PassState, rows: seq<Row>, k: string)
    requires WellFormed(ps.subs)
    requires k in ps.subs.items && ps.subs.items[k].status == Canceled
    ensures var r := ConsumeRows(env, ps, rows);
            r.Success? ==>
              && k in r.value.subs.items
              && (r.value.subs.items[k] == ps.subs.items[k]
                  || exists i :: 0 <= i < |rows| && IsPayment(rows[i]) && rows[i].refTxnId == Some(k))
    decreases |rows|
  {
    var r := ConsumeRows(env, ps, rows);
    if |rows| > 0 && r.Success? {
      var next := ConsumeRow(env, ps, rows[0]).value;
      if IsPayment(rows[0]) {
        var p := PreparePayment(env, ps.reporting, rows[0]).value;
        ApplyKeepsCanceled(ps.subs, rows[0], p, k);
      }
      if next.subs.items[k] == ps.subs.items[k] {
        RowsKeepCanceled(env, next, rows[1..], k);
        if r.value.subs.items[k] != ps.subs.items[k] {
          var i :| 0 <= i < |rows[1..]| && IsPayment(rows[1..][i]) && rows[1..][i].refTxnId == Some(k);
          assert IsPayment(rows[i + 1]) && rows[i + 1].refTxnId == Some(k);
        }
      } else {
        assert IsPayment(rows[0]) && rows[0].refTxnId == Some(k);
      }
    }
  }

  /** A tentative record that no subscription-payment row names, by reference id or by
      email, comes through any sequence of rows unchanged. */
  lemma {:induction false} RowsKeepUnnamed(env: Env, ps: PassState, rows: seq<Row>, k: string)
    requires WellFormed(ps.subs)
    requires k in ps.subs.items && ps.subs.items[k].status == Tentative
    requires forall i :: 0 <= i < |rows| && IsPayment(rows[i]) ==>
               rows[i].refTxnId != Some(k) && rows[i].email != ps.subs.items[k].email
    ensures var r := ConsumeRows(env, ps, rows);
            r.Success? ==> k in r.value.subs.items && r.value.subs.items[k] == ps.subs.items[k]
    decreases |rows|
  {
    var r := ConsumeRows(env, ps, rows);
    if |rows| > 0 && r.Success? {
      var next := ConsumeRow(env, ps, rows[0]).value;
      if IsPayment(rows[0]) {
        var p := PreparePayment(env, ps.reporting, rows[0]).value;
        ApplyKeepsUnnamed(ps.subs, rows[0], p, k);
      }
      assert next.subs.items[k] == ps.subs.items[k];
      forall i | 0 <= i < |rows[1..]| && IsPayment(rows[1..][i])
        ensures rows[1..][i].refTxnId != Some(k) && rows[1..][i].email != next.subs.items[k].email
      {
        assert rows[1..][i] == rows[i + 1];
      }
      RowsKeepUnnamed(env, next, rows[1..], k);
    }
  }

  /** A subscription active before a file and paid for by no row of it lapses within
      the pass: demoted to tentative, left alone by every row, then canceled, with
      every other field as it was. */
  lemma PassCancelsUnpaid(env: Env, led: Ledger, file: MsrFile, layout: NameLayout, k: string)
    requires Settled(led.subs)
    requires k in led.subs.items && led.subs.items[k].status == Active
    requires forall i :: 0 <= i < |file.rows| && IsPayment(file.rows[i]) ==>
               file.rows[i].refTxnId != Some(k) && file.rows[i].email != led.subs.items[k].email
    ensures var r := ProcessFile(env, led, file, layout);
            r.Success? ==>
              k in r.value.0.subs.items && r.value.0.subs.items[k] == led.subs.items[k].(status := Canceled)
  {
    var r := ProcessFile(env, led, file, layout);
    if r.Success? {
      var demoted := Demote(led.subs);
      assert demoted.items[k] == led.subs.items[k].(status := Tentative);
      var ps0 := PassState(demoted, led.reporting, Tally(0, 0, 0.0));
      RowsKeepUnnamed(env, ps0, file.rows, k);
      var done := ConsumeRows(env, ps0, file.rows).value;
      assert done.subs.items[k] == demoted.items[k];
      assert r.value.0.subs == CancelLeftovers(done.subs);
    }
  }

  /** Canceled is terminal across a file pass: a canceled subscription stays exactly as
      it was, unless a payment row of the file refers to its key, which files a new
      subscription under that key rather than renewing the old one. */
  lemma PassKeepsCanceled(env: Env, led: Ledger, file: MsrFile, layout: NameLayout, k: string)
    requires Settled(led.subs)
    requires k in led.subs.items && led.subs.items[k].status == Canceled
    ensures var r := ProcessFile(env, led, file, layout);
            r.Success? ==>
              && k in r.value.0.subs.items
              && (r.value.0.subs.items[k] == led.subs.items[k]
                  || exists i :: 0 <= i < |file.rows| && IsPayment(file.rows[i])
                                 && file.rows[i].refTxnId == Some(k))
  {
    var demoted := Demote(led.subs);
    RowsKeepCanceled(env, PassState(demoted, led.reporting, Tally(0, 0, 0.0)), file.rows, k);
  }

  // ---------------------------------------------------------------------------
  // The reporting currency

  /** Before the first consumed row there is no reporting currency and no
      subscription; afterwards every subscription is kept in the reporting currency. */
  ghost predicate CurrencyAgrees(subs: Store, reporting: Option<string>) {
    match reporting
    case None => subs.items == map[]
    case Some(c) => forall k :: k in subs.items ==> subs.items[k].currency == c
  }

  lemma RowKeepsCurrency(env: Env, ps: PassState, row: Row)
    requires WellFormed(ps.subs)
    requires CurrencyAgrees(ps.subs, ps.reporting)
    ensures var r := ConsumeRow(env, ps, row);
            r.Success? ==>
              && CurrencyAgrees(r.value.subs, r.value.reporting)
              && (ps.reporting.Some? ==> r.value.reporting == ps.reporting)
  {
    var r := ConsumeRow(env, ps, row);
    if IsPayment(row) && r.Success? {
      var p := PreparePayment(env, ps.reporting, row).value;
      match FindMatch(ps.subs, row)
      case Some(i) =>
        ApplyRenews(ps.subs, row, p, i);
      case None =>
        ApplyCreates(ps.subs, row, p);
    }
  }

  lemma {:induction false} RowsKeepCurrency(env: Env, ps: PassState, rows: seq<Row>)
    requires WellFormed(ps.subs)
    requires CurrencyAgrees(ps.subs, ps.reporting)
    ensures var r := ConsumeRows(env, ps, rows);
            r.Success? ==> CurrencyAgrees(r.value.subs, r.value.reporting)
    decreases |rows|
  {
    if |rows| > 0 {
      var next := ConsumeRow(env, ps, rows[0]);
      if next.Success? {
        RowKeepsCurrency(env, ps, rows[0]);
        RowsKeepCurrency(env, next.value, rows[1..]);
      }
    }
  }

  lemma PassKeepsCurrency(env: Env, led: Ledger, file: MsrFile, layout: NameLayout)
    requires Settled(led.subs)
    requires CurrencyAgrees(led.subs, led.reporting)
    ensures var r := ProcessFile(env, led, file, layout);
            r.Success? ==>
              && CurrencyAgrees(r.value.0.subs, r.value.0.reporting)
              && r.value.1.currency == r.value.0.reporting
              && (led.reporting.Some? ==> r.value.0.reporting == led.reporting)
  {
    var demoted := Demote(led.subs);
    var ps0 := PassState(demoted, led.reporting, Tally(0, 0, 0.0));
    RowsKeepCurrency(env, ps0, file.rows);
  }

  /** Every month summary of `months` is in currency `c`. */
  ghost predicate MonthsIn(months: Months, c: string) {
    forall k :: k in months.items ==> months.items[k].currency == Some(c)
  }

  /** One step of the loop over files. */
  lemma RunStep(env: Env, led: Ledger, months: Months, files: seq<MsrFile>, layout: NameLayout)
    requires Settled(led.subs) && Valid(months)
    requires |files| > 0
    requires ProcessFile(env, led, files[0], layout).Success?
    ensures var (next, summary) := ProcessFile(env, led, files[0], layout).value;
            && Settled(next.subs)
            && Run(env, led, months, files, layout)
               == Run(env, next, Put(months, summary.id, summary), files[1..], layout)
  {
  }

  lemma {:induction false} RunKeepsCurrency(env: Env, led: Ledger, months: Months, files: seq<MsrFile>,
                                            layout: NameLayout)
    requires Settled(led.subs) && Valid(months)
    requires CurrencyAgrees(led.subs, led.reporting)
    ensures var r := Run(env, led, months, files, layout);
            r.Success? ==>
              && CurrencyAgrees(r.value.0.subs, r.value.0.reporting)
              && (led.reporting.Some? ==> r.value.0.reporting == led.reporting)
    decreases |files|
  {
    if |files| > 0 {
      var step := ProcessFile(env, led, files[0], layout);
      if step.Success? {
        PassKeepsCurrency(env, led, files[0], layout);
        RunStep(env, led, months, files, layout);
        var next := step.value.0;
        var summary := step.value.1;
        RunKeepsCurrency(env, next, Put(months, summary.id, summary), files[1..], layout);
      }
    }
  }

  /** Once the reporting currency is fixed, every later month is reported in it. */
  lemma {:induction false} RunMonthsCurrency(env: Env, led: Ledger, months: Months, files: seq<MsrFile>,
                                             layout: NameLayout, c: string)
    requires Settled(led.subs) && Valid(months)
    requires CurrencyAgrees(led.subs, led.reporting)
    requires led.reporting == Some(c) && MonthsIn(months, c)
    ensures var r := Run(env, led, months, files, layout);
            r.Success? ==> MonthsIn(r.value.1, c)
    decreases |files|
  {
    if |files| > 0 {
      var step := ProcessFile(env, led, files[0], layout);
      if step.Success? {
        PassKeepsCurrency(env, led, files[0], layout);
        RunStep(env, led, months, files, layout);
        var next := step.value.0;
        var summary := step.value.1;
        var months' := Put(months, summary.id, summary);
        assert MonthsIn(months', c) by {
          forall k | k in months'.items ensures months'.items[k].currency == Some(c) {
            if k != summary.id {
              assert k in months.items;
            }
          }
        }
        RunMonthsCurrency(env, next, months', files[1..], layout, c);
      }
    }
  }

  /** All subscriptions of the table share one currency; when a reporting currency is
      given, it is that one, and every month is reported in it. */
  lemma OneCurrency(env: Env, files: seq<MsrFile>, layout: NameLayout, reporting: Option<string>)
    ensures var r := ParseMsrFiles(env, files, layout, reporting);
            r.Success? ==>
              && (forall k, j :: k in r.value.0.items && j in r.value.0.items
                                 ==> r.value.0.items[k].currency == r.value.0.items[j].currency)
              && (reporting.Some? ==>
                    && (forall k :: k in r.value.0.items ==> r.value.0.items[k].currency == reporting.value)
                    && MonthsIn(r.value.1, reporting.value))
  {
    RunKeepsCurrency(env, Ledger(Empty(), reporting), Empty(), files, layout);
    if reporting.Some? {
      RunMonthsCurrency(env, Ledger(Empty(), reporting), Empty(), files, layout, reporting.value);
    }
  }

  // ---------------------------------------------------------------------------
  // The months table

  /** The key of the summary of `file`. */
  function FileKey(file: MsrFile, layout: NameLayout): string {
    MonthKey(YearOf(file.path, layout), MonthOf(file.path, layout))
  }

  /** `k` is the month key of one of `files`. */
  ghost predicate KeyOfSome(k: string, files: seq<MsrFile>, layout: NameLayout) {
    exists i :: 0 <= i < |files| && k == FileKey(files[i], layout)
  }

  lemma KeyOfSomeCons(k: string, files: seq<MsrFile>, layout: NameLayout)
    requires |files| > 0
    requires k == FileKey(files[0], layout) || KeyOfSome(k, files[1..], layout)
    ensures KeyOfSome(k, files, layout)
  {
    if k != FileKey(files[0], layout) {
      var rest := files[1..];
      var i :| 0 <= i < |rest| && k == FileKey(rest[i], layout);
      assert rest[i] == files[i + 1];
    }
  }

  /** Every month key comes from one of the files, and there are at most as many
      months as files: files with the same year and month share one entry, the later
      file's summary replacing the earlier one in place. */
  lemma {:induction false} RunMonthKeys(env: Env, led: Ledger, months: Months, files: seq<MsrFile>,
                                        layout: NameLayout)
    requires Settled(led.subs) && Valid(months)
    ensures var r := Run(env, led, months, files, layout);
            r.Success? ==>
              && |r.value.1.keys| <= |months.keys| + |files|
              && months.keys <= r.value.1.keys
              && forall k :: k in r.value.1.items ==> k in months.items || KeyOfSome(k, files, layout)
    decreases |files|
  {
    var r := Run(env, led, months, files, layout);
    if |files| > 0 && r.Success? {
      assert ProcessFile(env, led, files[0], layout).Success?;
      RunStep(env, led, months, files, layout);
      var next := ProcessFile(env, led, files[0], layout).value.0;
      var summary := ProcessFile(env, led, files[0], layout).value.1;
      assert summary.id == FileKey(files[0], layout);
      var months' := Put(months, summary.id, summary);
      RunMonthKeys(env, next, months', files[1..], layout);
      forall k | k in r.value.1.items
        ensures k in months.items || KeyOfSome(k, files, layout)
      {
        if k !in months.items {
          KeyOfSomeCons(k, files, layout);
        }
      }
    }
  }

  /** Every pass files its summary under its own key, so each file's `year-month` key
      is in the months table at the end, and earlier keys stay. */
  lemma {:induction false} RunHasFileKeys(env: Env, led: Ledger, months: Months, files: seq<MsrFile>,
                                          layout: NameLayout)
    requires Settled(led.subs) && Valid(months)
    ensures var r := Run(env, led, months, files, layout);
            r.Success? ==>
              && (forall k :: k in months.items ==> k in r.value.1.items)
              && (forall i :: 0 <= i < |files| ==> FileKey(files[i], layout) in r.value.1.items)
    decreases |files|
  {
    var r := Run(env, led, months, files, layout);
    if |files| > 0 && r.Success? {
      assert ProcessFile(env, led, files[0], layout).Success?;
      RunStep(env, led, months, files, layout);
      var next := ProcessFile(env, led, files[0], layout).value.0;
      var summary := ProcessFile(env, led, files[0], layout).value.1;
      assert summary.id == FileKey(files[0], layout);
      var months' := Put(months, summary.id, summary);
      RunHasFileKeys(env, next, months', files[1..], layout);
      forall i | 0 <= i < |files|
        ensures FileKey(files[i], layout) in r.value.1.items
      {
        if i > 0 {
          assert files[i] == files[1..][i - 1];
        }
      }
    }
  }

  /** A months table whose entries are filed under their own ids keeps that shape
      through a run. */
  lemma {:induction false} RunEntryIds(env: Env, led: Ledger, months: Months, files: seq<MsrFile>,
                                       layout: NameLayout)
    requires Settled(led.subs) && Valid(months)
    requires forall k :: k in months.items ==> months.items[k].id == k
    ensures var r := Run(env, led, months, files, layout);
            r.Success? ==> forall k :: k in r.value.1.items ==> r.value.1.items[k].id == k
    decreases |files|
  {
    var r := Run(env, led, months, files, layout);
    if |files| > 0 && r.Success? {
      assert ProcessFile(env, led, files[0], layout).Success?;
      RunStep(env, led, months, files, layout);
      var next := ProcessFile(env, led, files[0], layout).value.0;
      var summary := ProcessFile(env, led, files[0], layout).value.1;
      var months' := Put(months, summary.id, summary);
      RunEntryIds(env, next, months', files[1..], layout);
    }
  }

  /** The months table of a whole run holds exactly one entry per distinct `year-month`
      key of the files, each filed under its own id. */
  lemma MonthsTable(env: Env, files: seq<MsrFile>, layout: NameLayout, reporting: Option<string>)
    ensures var r := ParseMsrFiles(env, files, layout, reporting);
            r.Success? ==>
              && (forall k :: k in r.value.1.items <==> KeyOfSome(k, files, layout))
              && (forall k :: k in r.value.1.items ==> r.value.1.items[k].id == k)
  {
    var r := ParseMsrFiles(env, files, layout, reporting);
    if r.Success? {
      var led := Ledger(Empty(), reporting);
      var empty: Months := Empty();
      RunMonthKeys(env, led, empty, files, layout);
      RunHasFileKeys(env, led, empty, files, layout);
      RunEntryIds(env, led, empty, files, layout);
      var run := Run(env, led, empty, files, layout);
      assert run.Success? && r.value.1 == run.value.1;
      forall k | KeyOfSome(k, files, layout)
        ensures k in r.value.1.items
      {
        var i :| 0 <= i < |files| && k == FileKey(files[i], layout);
      }
    }
  }
}

=== FILE: subscriptions.dfy ===
/** The subscription store of the report parser and the operations one file pass
    performs on it: demotion of the active subscriptions, matching of a payment row,
    renewal or creation of a subscription, and cancellation of the leftovers. */
module Subscriptions {
  import opened Wrappers
  import opened OrderedMap
  import opened Decimal

  /** The per-month marker of a subscription. `Tentative` means "active last month,
      no payment seen yet this month"; `Canceled` is never matched again. */
  datatype Status = Active | Tentative | Canceled

  /** A calendar date as produced by `strptime(...).date()`; compared only for equality. */
  datatype Date = Date(year: int, month: int, day: int)

  /** The Gross cell as the CSV reader delivers it: text when it holds thousands
      separators, a number otherwise. */
  datatype Amount = Text(text: string) | Number(number: real)

  /** One row of a report file, restricted to the columns the parser reads.
      `refTxnId` is None when the Reference Txn ID cell is empty (not a string). */
  datatype Row = Row(
    description: string,
    date: string,
    currency: string,
    gross: Amount,
    refTxnId: Option<string>,
    email: string,
    name: string)

  /** A consumed row after parsing: its date, its gross converted (when possible) to
      the reporting currency, and that reporting currency. */
  datatype Payment = Payment(date: Date, gross: real, currency: string)

  /** One entry of the subscriptions table. */
  datatype Subscription = Subscription(
    id: string,
    name: string,
    email: string,
    start: Date,
    end: Date,
    length: nat,
    currency: string,
    gross: real,
    originalCurrency: string,
    originalGross: Amount,
    status: Status)

  /** The `subscriptions` dict: subscription id to record, in insertion order. */
  type Store = OMap<string, Subscription>

  /** Every record is filed under its own id and has at least one payment. */
  ghost predicate WellFormed(st: Store) {
    && Valid(st)
    && forall k :: k in st.items ==> st.items[k].id == k && st.items[k].length >= 1
  }

  /** No record of the store has status `s`. */
  ghost predicate NoneWith(st: Store, s: Status) {
    forall k :: k in st.items ==> st.items[k].status != s
  }

  // ---------------------------------------------------------------------------
  // Counting records by status, in iteration order

  function CountStatus(ids: seq<string>, items: map<string, Subscription>, s: Status): (n: nat)
    requires forall k :: k in ids ==> k in items
    ensures n <= |ids|
  {
    if |ids| == 0 then 0
    else
      CountStatus(ids[..|ids| - 1], items, s)
      + (if items[ids[|ids| - 1]].status == s then 1 else 0)
  }

  /** Number of records of the store with status `s`. */
  function Count(st: Store, s: Status): nat
    requires Valid(st)
  {
    CountStatus(st.keys, st.items, s)
  }

  /** Counting only looks at the statuses of the listed records. */
  lemma {:induction false} CountPointwise(ids: seq<string>, m1: map<string, Subscription>, s1: Status,
                                          m2: map<string, Subscription>, s2: Status)
    requires forall k :: k in ids ==> k in m1 && k in m2
    requires forall k :: k in ids ==> (m1[k].status == s1 <==> m2[k].status == s2)
    ensures CountStatus(ids, m1, s1) == CountStatus(ids, m2, s2)
  {
    if |ids| > 0 {
      var init := ids[..|ids| - 1];
      assert forall k :: k in init ==> k in ids;
      CountPointwise(init, m1, s1, m2, s2);
    }
  }

  /** The count is zero exactly when no listed record has the status. */
  lemma {:induction false} CountZero(ids: seq<string>, items: map<string, Subscription>, s: Status)
    requires forall k :: k in ids ==> k in items
    ensures CountStatus(ids, items, s) == 0 <==> forall k :: k in ids ==> items[k].status != s
  {
    if |ids| > 0 {
      var init := ids[..|ids| - 1];
      assert forall k :: k in init ==> k in ids;
      assert forall k :: k in ids ==> k in init || k == ids[|ids| - 1];
      CountZero(init, items, s);
    }
  }

  /** Changing the record of one listed key changes the count by that record's
      contribution only. */
  lemma {:induction false} CountUpdate(ids: seq<string>, items: map<string, Subscription>, k: string,
                                       v: Subscription, s: Status)
    requires Distinct(ids)
    requires forall j :: j in ids ==> j in items
    requires k in ids
    ensures CountStatus(ids, items[k := v], s)
            == CountStatus(ids, items, s)
               - (if items[k].status == s then 1 else 0)
               + (if v.status == s then 1 else 0)
  {
    var init := ids[..|ids| - 1];
    var last := ids[|ids| - 1];
    assert forall j :: j in init ==> j in ids;
    if k == last {
      assert k !in init;
      CountPointwise(init, items[k := v], s, items, s);
    } else {
      assert k in init by {
        var i :| 0 <= i < |ids| && ids[i] == k;
        assert init[i] == k;
      }
      CountUpdate(init, items, k, v, s);
    }
  }

  /** Adding a new key at the end adds the new record's contribution. */
  lemma CountAppend(ids: seq<string>, items: map<string, Subscription>, k: string,
                    v: Subscription, s: Status)
    requires forall j :: j in ids ==> j in items
    requires k !in ids
    ensures CountStatus(ids + [k], items[k := v], s)
            == CountStatus(ids, items, s) + (if v.status == s then 1 else 0)
  {
    assert (ids + [k])[..|ids|] == ids;
    CountPointwise(ids, items[k := v], s, items, s);
  }

  // ---------------------------------------------------------------------------
  // Start and end of a file pass

  function Demoted(sub: Subscription): Subscription {
    if sub.status == Active then sub.(status := Tentative) else sub
  }

  /** Start of a pass: every active subscription becomes tentative. */
  function Demote(st: Store): (r: Store)
    requires WellFormed(st)
    ensures WellFormed(r)
    ensures r.keys == st.keys && r.items.Keys == st.items.Keys
    ensures NoneWith(r, Active)
    ensures forall k :: k in st.items ==>
              (r.items[k].status == Tentative <==>
                 st.items[k].status == Active || st.items[k].status == Tentative)
    ensures forall k :: k in st.items ==> r.items[k] == st.items[k].(status := r.items[k].status)
    ensures forall k :: k in st.items && st.items[k].status == Canceled ==> r.items[k] == st.items[k]
    ensures Count(r, Tentative) == Count(st, Active) + Count(st, Tentative)
  {
    var r := OMap(st.keys, map k | k in st.items :: Demoted(st.items[k]));
    assert r.items.Keys == st.items.Keys;
    CountTwoStatuses(st.keys, st.items, Active, Tentative, r.items, Tentative);
    r
  }

  /** Counting a status that covers exactly two earlier statuses adds their counts. */
  lemma {:induction false} CountTwoStatuses(ids: seq<string>, m1: map<string, Subscription>,
                                            s1: Status, s2: Status,
                                            m2: map<string, Subscription>, s: Status)
    requires forall k :: k in ids ==> k in m1 && k in m2
    requires s1 != s2
    requires forall k :: k in ids ==>
               (m2[k].status == s <==> m1[k].status == s1 || m1[k].status == s2)
    ensures CountStatus(ids, m2, s) == CountStatus(ids, m1, s1) + CountStatus(ids, m1, s2)
  {
    if |ids| > 0 {
      var init := ids[..|ids| - 1];
      assert forall k :: k in init ==> k in ids;
      CountTwoStatuses(init, m1, s1, s2, m2, s);
    }
  }

  function Closed(sub: Subscription): Subscription {
    if sub.status == Tentative then sub.(status := Canceled) else sub
  }

  /** End of a pass: every subscription still tentative becomes canceled. */
  function CancelLeftovers(st: Store): (r: Store)
    requires WellFormed(st)
    ensures WellFormed(r)
    ensures r.keys == st.keys && r.items.Keys == st.items.Keys
    ensures NoneWith(r, Tentative)
    ensures forall k :: k in st.items ==>
              (r.items[k].status == Canceled <==>
                 st.items[k].status == Tentative || st.items[k].status == Canceled)
    ensures forall k :: k in st.items ==> r.items[k] == st.items[k].(status := r.items[k].status)
    ensures forall k :: k in st.items && st.items[k].status == Active ==> r.items[k] == st.items[k]
    ensures Count(r, Canceled) == Count(st, Canceled) + Count(st, Tentative)
    ensures Count(r, Active) == Count(st, Active)
  {
    var r := OMap(st.keys, map k | k in st.items :: Closed(st.items[k]));
    assert r.items.Keys == st.items.Keys;
    CountPointwise(st.keys, r.items, Active, st.items, Active);
    CountTwoStatuses(st.keys, st.items, Tentative, Canceled, r.items, Canceled);
    r
  }

  // ---------------------------------------------------------------------------
  // Matching a payment row

  /** A record the row may renew: tentative, and carrying the row's reference id as
      its id or the row's sender email as its email. */
  predicate Matches(sub: Subscription, row: Row) {
    && sub.status == Tentative
    && ((row.refTxnId.Some? && row.refTxnId.value == sub.id) || row.email == sub.email)
  }

  function FindMatchFrom(st: Store, row: Row, i: nat): (r: Option<nat>)
    requires Valid(st)
    requires i <= |st.keys|
    ensures r.Some? ==> i <= r.value < |st.keys| && Matches(st.items[st.keys[r.value]], row)
    ensures r.Some? ==> forall j :: i <= j < r.value ==> !Matches(st.items[st.keys[j]], row)
    ensures r.None? ==> forall j :: i <= j < |st.keys| ==> !Matches(st.items[st.keys[j]], row)
    decreases |st.keys| - i
  {
    if i == |st.keys| then None
    else if Matches(st.items[st.keys[i]], row) then Some(i)
    else FindMatchFrom(st, row, i + 1)
  }

  /** The position of the record a row renews: the earliest record in iteration order
      that matches the row, or None when no record matches. */
  function FindMatch(st: Store, row: Row): (r: Option<nat>)
    requires Valid(st)
    ensures r.Some? ==> r.value < |st.keys| && Matches(st.items[st.keys[r.value]], row)
    ensures r.Some? ==> forall j :: 0 <= j < r.value ==> !Matches(st.items[st.keys[j]], row)
    ensures r.None? <==> forall k :: k in st.items ==> !Matches(st.items[k], row)
  {
    var r := FindMatchFrom(st, row, 0);
    assert r.None? ==> forall k :: k in st.items ==> !Matches(st.items[k], row) by {
      if r.None? {
        forall k | k in st.items ensures !Matches(st.items[k], row) {
          var j :| 0 <= j < |st.keys| && st.keys[j] == k;
        }
      }
    }
    r
  }

  // ---------------------------------------------------------------------------
  // Ids of new subscriptions

  /** The processor's subscription-id shape: a string longer than three characters
      whose second character is '-'. */
  predicate RefShaped(ref: Option<string>) {
    ref.Some? && |ref.value| > 3 && ref.value[1] == '-'
  }

  /** `email + "_" + str(n)`. */
  function SynthId(email: string, n: nat): string {
    email + "_" + Show(n)
  }

  lemma SynthIdInjective(email: string, n: nat, m: nat)
    ensures SynthId(email, n) == SynthId(email, m) ==> n == m
  {
    if SynthId(email, n) == SynthId(email, m) {
      assert Show(n) == SynthId(email, n)[|email| + 1..];
      assert Show(m) == SynthId(email, m)[|email| + 1..];
      ShowInjective(n, m);
    }
  }

  /** The ids `email_1` .. `email_(n-1)` are n - 1 different strings. */
  lemma {:induction false} SynthIdsCount(email: string, n: nat)
    requires n >= 1
    ensures |set j | 1 <= j < n :: SynthId(email, j)| == n - 1
  {
    if n > 1 {
      SynthIdsCount(email, n - 1);
      var smaller := set j | 1 <= j < n - 1 :: SynthId(email, j);
      var all := set j | 1 <= j < n :: SynthId(email, j);
      assert SynthId(email, n - 1) !in smaller by {
        if SynthId(email, n - 1) in smaller {
          var j :| 1 <= j < n - 1 && SynthId(email, j) == SynthId(email, n - 1);
          SynthIdInjective(email, j, n - 1);
        }
      }
      assert all == smaller + {SynthId(email, n - 1)};
    }
  }

  /** `while (email + "_" + str(n)) in subscriptions: n += 1`, started from `n`.
      It stops because at most |keys| suffixes can be taken. */
  function FreshSuffix(email: string, keys: set<string>, n: nat): (r: nat)
    requires n >= 1
    requires forall j :: 1 <= j < n ==> SynthId(email, j) in keys
    ensures r >= n
    ensures SynthId(email, r) !in keys
    ensures forall j :: 1 <= j < r ==> SynthId(email, j) in keys
    decreases |keys| + 1 - n
  {
    if SynthId(email, n) !in keys then n
    else
      SynthIdsCount(email, n + 1);
      assert (set j | 1 <= j < n + 1 :: SynthId(email, j)) <= keys;
      assert n <= |keys| by {
        SubsetCard(set j | 1 <= j < n + 1 :: SynthId(email, j), keys);
      }
      FreshSuffix(email, keys, n + 1)
  }

  lemma SubsetCard(a: set<string>, b: set<string>)
    requires a <= b
    ensures |a| <= |b|
  {
    assert b == a + (b - a);
  }

  /** `id` is `email_n` for the least n >= 1 that is not a key yet. */
  ghost predicate LeastFreeSynth(email: string, keys: set<string>, id: string) {
    exists n: nat :: 1 <= n && id == SynthId(email, n) && id !in keys
                     && forall j :: 1 <= j < n ==> SynthId(email, j) in keys
  }

  /** The id of a new subscription: the row's reference id when it has the processor's
      shape (whether or not that key is taken), otherwise a synthesized id that no
      existing record uses. */
  function NewId(row: Row, keys: set<string>): (id: string)
    ensures RefShaped(row.refTxnId) ==> id == row.refTxnId.value
    ensures !RefShaped(row.refTxnId) ==> id !in keys && LeastFreeSynth(row.email, keys, id)
  {
    if RefShaped(row.refTxnId) then row.refTxnId.value
    else SynthId(row.email, FreshSuffix(row.email, keys, 1))
  }

  // ---------------------------------------------------------------------------
  // Applying one payment

  /** A renewal: later end date, one more month, more gross, active again. */
  function Renewed(sub: Subscription, p: Payment): Subscription {
    sub.(end := p.date, length := sub.length + 1, gross := sub.gross + p.gross, status := Active)
  }

  /** The record created for an unmatched row. */
  function Fresh(id: string, row: Row, p: Payment): Subscription {
    Subscription(id, row.name, row.email, p.date, p.date, 1, p.currency, p.gross,
                 row.currency, row.gross, Active)
  }

  /** The key a payment writes to: the matched record, or the id of the new one. */
  function TargetKey(st: Store, row: Row): string
    requires Valid(st)
  {
    match FindMatch(st, row)
    case Some(i) => st.keys[i]
    case None => NewId(row, st.items.Keys)
  }

  /** Renews the earliest matching record, or creates a new one; the boolean tells
      whether a subscription was created. Only the target key changes. */
  function ApplyPayment(st: Store, row: Row, p: Payment): (r: (Store, bool))
    requires WellFormed(st)
    ensures WellFormed(r.0)
    ensures r.1 <==> FindMatch(st, row).None?
    ensures TargetKey(st, row) in r.0.items
    ensures r.0.keys == st.keys || (r.1 && r.0.keys == st.keys + [TargetKey(st, row)])
    ensures forall k :: k in st.items && k != TargetKey(st, row) ==> k in r.0.items && r.0.items[k] == st.items[k]
    ensures forall k :: k in r.0.items ==> k in st.items || k == TargetKey(st, row)
  {
    match FindMatch(st, row)
    case Some(i) =>
      var k := st.keys[i];
      (Put(st, k, Renewed(st.items[k], p)), false)
    case None =>
      var id := NewId(row, st.items.Keys);
      (Put(st, id, Fresh(id, row, p)), true)
  }

  /** A renewal changes only the matched record, which was tentative: its end date
      becomes the payment date, its length grows by one, the payment's gross is added
      and it is active again; id, name, email, start and the original currency and
      gross stay as they were. No key is added. */
  lemma ApplyRenews(st: Store, row: Row, p: Payment, i: nat)
    requires WellFormed(st)
    requires FindMatch(st, row) == Some(i)
    ensures i < |st.keys| && st.items[st.keys[i]].status == Tentative
    ensures var (r, created) := ApplyPayment(st, row, p);
            var k := st.keys[i];
            && !created
            && r.keys == st.keys
            && r.items[k] == st.items[k].(end := p.date, length := st.items[k].length + 1,
                                           gross := st.items[k].gross + p.gross, status := Active)
            && forall j :: j in st.items && j != k ==> r.items[j] == st.items[j]
  {
  }

  /** A row no record matches creates a subscription with one payment, starting and
      ending on the payment date, active, holding the payment's gross. Its key is never
      a tentative record's, and it replaces an existing record only when the row's
      reference id has the processor's shape. */
  lemma ApplyCreates(st: Store, row: Row, p: Payment)
    requires WellFormed(st)
    requires FindMatch(st, row).None?
    ensures var (r, created) := ApplyPayment(st, row, p);
            var id := NewId(row, st.items.Keys);
            && created
            && id in r.items
            && r.items[id].id == id && r.items[id].name == row.name && r.items[id].email == row.email
            && r.items[id].start == p.date && r.items[id].end == p.date
            && r.items[id].length == 1 && r.items[id].status == Active
            && r.items[id].gross == p.gross && r.items[id].currency == p.currency
            && r.items[id].originalCurrency == row.currency && r.items[id].originalGross == row.gross
            && (id in st.items ==> st.items[id].status != Tentative && RefShaped(row.refTxnId))
            && (id !in st.items ==> r.keys == st.keys + [id])
  {
    var id := NewId(row, st.items.Keys);
    if id in st.items {
      assert !Matches(st.items[id], row);
    }
  }

  /** A renewal turns exactly one tentative record active; a creation leaves the
      number of tentative records alone. */
  lemma ApplyTentativeCount(st: Store, row: Row, p: Payment)
    requires WellFormed(st)
    ensures var (r, created) := ApplyPayment(st, row, p);
            Count(r, Tentative) + (if created then 0 else 1) == Count(st, Tentative)
  {
    var (r, created) := ApplyPayment(st, row, p);
    match FindMatch(st, row)
    case Some(i) =>
      var k := st.keys[i];
      CountUpdate(st.keys, st.items, k, Renewed(st.items[k], p), Tentative);
    case None =>
      var id := NewId(row, st.items.Keys);
      ApplyCreates(st, row, p);
      if id in st.items {
        CountUpdate(st.keys, st.items, id, Fresh(id, row, p), Tentative);
      } else {
        CountAppend(st.keys, st.items, id, Fresh(id, row, p), Tentative);
      }
  }

  /** A canceled record is never renewed: it stays as it is unless a new subscription
      is filed under its key, which only a row carrying that key as its reference id
      can do. */
  lemma ApplyKeepsCanceled(st: Store, row: Row, p: Payment, k: string)
    requires WellFormed(st)
    requires k in st.items && st.items[k].status == Canceled
    ensures var (r, created) := ApplyPayment(st, row, p);
            && k in r.items
            && (r.items[k] == st.items[k]
                || (created && row.refTxnId == Some(k) && r.items[k].length == 1
                    && r.items[k].status == Active))
  {
    var (r, created) := ApplyPayment(st, row, p);
    if FindMatch(st, row).None? {
      ApplyCreates(st, row, p);
    }
  }

  /** A tentative record that a row names neither by reference id nor by email is left
      as it is: the row renews some other record, or it creates one under a key that
      cannot be this one. */
  lemma ApplyKeepsUnnamed(st: Store, row: Row, p: Payment, k: string)
    requires WellFormed(st)
    requires k in st.items && st.items[k].status == Tentative
    requires row.refTxnId != Some(k) && row.email != st.items[k].email
    ensures var (r, created) := ApplyPayment(st, row, p);
            k in r.items && r.items[k] == st.items[k]
  {
    assert !Matches(st.items[k], row);
    match FindMatch(st, row)
    case Some(i) =>
      assert st.keys[i] != k;
    case None =>
      var id := NewId(row, st.items.Keys);
      assert id != k;
  }
}

=== FILE: wrappers.dfy ===
/** Failure-compatible wrappers used throughout the model. */
module Wrappers {

  /** An optional value: stands for a missing cell, a non-string cell or an unset setting. */
  datatype Option<+T> = None | Some(value: T) {

    /** Returns the value carried by Some, or `default` when None. */
    function GetOr(default: T): T {
      match this
      case Some(v) => v
      case None => default
    }
  }

  /** Either a value or the error that aborted the computation; usable with `:-`. */
  datatype Result<+R, +E> = Success(value: R) | Failure(error: E) {

    predicate IsFailure() {
      Failure?
    }

    function PropagateFailure<U>(): Result<U, E>
      requires Failure?
    {
      Failure(error)
    }

    function Extract(): R
      requires Success?
    {
      value
    }
  }
}
